=== FILE: README.md ===
# remote_desk relay core, modelled in Dafny

remote_desk turns a phone into a remote control for a desktop. The host serves a control page over HTTP on port 8080. It accepts WebSocket connections on port 8765. It turns each JSON command the page sends (`{"action": "...", "key": "..."}`) into a mouse or keyboard call of the `pyautogui` library. This project models the logic of `omain1.py`:

- `wrappers.dfy` (`Wrappers`): the `Option` datatype. It stands for Python's `None`.
- `commands.dfy` (`Commands`): the ten action tags. It holds the `if`/`elif` chain that recognises a tag and the one input call each branch makes.
- `relay.dfy` (`Relay`): `handle_client`. Frames arrive already parsed, as `Malformed`, `NonObject` or `Obj(action, key)`. Each frame has an `Outcome`: a call that was performed, a silent fall-through, or an error that was caught and printed. The connection is a loop over those frames plus the way the stream ended. An oracle `ok: Effect -> bool` decides whether an input call raises.
- `text.dfy` (`Text`): Python's `str.find`, `str.replace` and `str.count` over `seq<char>`. The replace is defined recursively and also given as an iterative find-and-copy loop. The module also has decimal formatting of a non-negative `int`, with its parse as inverse.
- `page.dfy` (`Page`): the configuration constants. It also has `update_html_file` as a function from the template (or its absence) to the text written to the page (or nothing), the access link and the "not connected" branch of `run_gui`, and the loopback fallback of `get_local_ip`.

What the code does with unexpected input:

- It raises no error of its own for a missing field or an unknown action.
- `press_key` without a `key` field passes `None` to `pyautogui.press`. The model keeps it as `Press(None)`, and the oracle decides whether that call raises.
- A missing or unknown `action` matches no branch. It produces no call and no error (`Ignored`).
- The code does no check of key names. Whatever the library does with an unknown key is left to the oracle.

## Model

| member | source | states |
|---|---|---|
| Commands.Recognise | omain1.py:50-77 | the chain selects a command exactly when `action` equals some command's tag, and then that command; a missing or unknown action selects nothing |
| Commands.TagsDistinct | omain1.py:53-77 | the ten tags are pairwise different, so at most one branch of the chain can match |
| Commands.RecogniseTagOf | omain1.py:53-77 | every command's own tag is recognised as that command (the chain and the tag table agree) |
| Commands.KeyOnlyMattersForPressKey | omain1.py:59-61 | the `key` field changes the call only for `press_key`; every other branch ignores it |
| Commands.EffectOf | omain1.py:53-77 | `press_key` calls `press` with the message's key as given; only `press_key` without a key presses nothing named; only `left_click` clicks, only `right_click` right-clicks, and only `minimize_all` sends a hotkey |
| Relay.Dispatch | omain1.py:49-77 | a message asks for at most one input call; it asks for one exactly when it is an object whose action is one of the ten tags, and then it is that tag's call with the message's key |
| Relay.Process | omain1.py:48-79 | a message is performed iff its call exists and succeeds; it is ignored iff it is an object selecting no branch; malformed JSON and non-objects are caught errors; a failing call is a caught error that names that call |
| Relay.Handle | omain1.py:47-79 | one outcome per message, the i-th being the i-th message's own outcome, so one message's failure never affects another's |
| Relay.HandleClient | omain1.py:44-83 | the handler loop processes every frame received in arrival order, whatever the earlier frames did, and agrees with the fold `Handle`; the way the stream ends only adds the matching notice (none on a clean close), and, with every `print` succeeding, the handler returns normally |
| Relay.Effects | omain1.py:47-79 | the performed calls of a trace are no more than its outcomes, include every performed outcome's call, and contain nothing that was not performed |
| Relay.HandleAppend | omain1.py:47-79 | the outcomes of `m1 ++ m2` are the outcomes of `m1` followed by those of `m2` |
| Relay.EffectsOfConcatenation | omain1.py:47-77 | the performed calls of `m1 ++ m2` are those of `m1` followed by those of `m2` |
| Relay.EffectsAreSucceedingCalls | omain1.py:47-79 | the performed calls of a connection are exactly the calls its messages ask for, in order, less the ones that raise |
| Relay.SilentMessageIsolated | omain1.py:47-79 | inserting a message that raises or selects nothing anywhere in a connection leaves the other messages' performed calls unchanged |
| Relay.TagTable | omain1.py:53-77 | the tag table: each of the ten tags yields exactly its one call (`click`, `rightClick`, `press(key)`, `press("f")`, `press("esc")`, `hotkey("win","d")`, `press("playpause")`, `press("volumemute")`, `press("volumeup")`, `press("volumedown")`) |
| Relay.PressKeyPassesKeyThrough | omain1.py:59-61 | `press_key` passes the key on unchanged, an absent key included; the only failure is the call itself raising |
| Relay.UnknownActionFallsThrough | omain1.py:50-77 | an object whose action is missing or not a tag asks for no call and is not an error |
| Relay.MalformedThenClick | omain1.py:47-79 | a malformed frame followed by `left_click` performs exactly one click |
| Text.IndexOf | omain1.py:124-126 | a match that is found lies wholly inside the string |
| Text.IndexOfLeftmost | omain1.py:124-126 | the search finds a match exactly when the pattern occurs, and then the leftmost one |
| Text.ReplaceAll | omain1.py:124-126 | the find-and-copy loop produces exactly the recursive left-to-right, non-overlapping replacement |
| Text.Find | omain1.py:124-126 | the scanning search returns -1 exactly when there is no occurrence, and otherwise the leftmost index |
| Text.Count | omain1.py:124-126 | the non-overlapping occurrences counted fit in the string: their number times the pattern's length is at most its length |
| Text.Replace | omain1.py:124-126 | the result's length is the input's plus, for each non-overlapping occurrence, the difference in length between replacement and pattern |
| Text.ReplaceBySelf | omain1.py:124-126 | replacing the pattern by itself returns the input |
| Text.ReplaceUnchangedIff | omain1.py:124-126 | the replacement returns its input exactly when the pattern does not occur or the replacement equals the pattern |
| Text.Decimal | omain1.py:125 | a non-negative `int` prints as a non-empty string of decimal digits with no leading zero |
| Text.DecimalRoundTrip | omain1.py:125 | parsing the printed digits of a number gives back the number |
| Page.PortsPrint | omain1.py:15-16 | the two port constants print as `8765` and `8080` |
| Text.DecimalInjective | omain1.py:125 | two non-negative numbers print the same digits exactly when they are equal |
| Page.BetweenRoundTrip | omain1.py:125 | taking a prefix and a suffix off a string built from them gives back the middle |
| Page.WsAddress | omain1.py:125 | the address for an IP is `ws://`, then that IP, then `:8765`, and the IP can be read back out of it |
| Page.WsAddressLiteral | omain1.py:125 | the address is exactly `"ws://" + ip + ":8765"` |
| Page.WsAddressIsNotPlaceholder | omain1.py:124-126 | no IP makes the new address equal the placeholder `ws://localhost:port` |
| Page.UpdateHtml | omain1.py:116-129 | text is written to the page exactly when the template exists; the text written is as long as the text read plus the address-length difference once per occurrence of the placeholder |
| Page.UpdateHtmlUnchangedIff | omain1.py:119-129 | the text written equals the text read exactly when the template holds no placeholder |
| Page.UpdateHtmlPlaceholderOnly | omain1.py:124-126 | a template that is just the placeholder becomes exactly `"ws://" + ip + ":8765"` |
| Page.AccessLink | omain1.py:138 | the link is `http://`, then the IP, then `:8080/index.html`, and the IP can be read back out of it |
| Page.AccessLinkLiteral | omain1.py:138 | the link is exactly `"http://" + ip + ":8080/index.html"` |
| Page.AccessLinkInjective | omain1.py:138 | two IPs give the same link exactly when they are the same IP |
| Page.ShowBanner | omain1.py:138-163 | the "not connected" message is shown iff the IP is `127.0.0.1`; otherwise the window shows the IP and a label for a link that it opens and that carries that IP |
| Page.LocalIp | omain1.py:32-41 | when the route probe raises, the address falls back to `127.0.0.1`; the address is the loopback one exactly when the probe failed or reported loopback |
| Page.NoRouteShowsNotConnected | omain1.py:32-41 | when the route probe fails, the fallback address makes the window report that there is no network |

## Left out

- JSON parsing (`json.loads`, line 49) is not modelled. The model starts from its result: malformed, not an object, or an object with `action` and `key`. A non-string `action` value counts as absent, because it equals no tag either way.
- Relay.Dispatch: non-string `key` values are not modelled. `key` is a string or absent. A JSON list as `key` would make `pyautogui.press` press each element.
- The `pyautogui` calls are a foreign library with OS side effects. They are `Effect` values, and the oracle decides whether they raise. A call that raises counts as having had no effect.
- The text `print` writes for an error or a closing notice is not modelled. The model keeps only which error or notice occurred.
- `except Exception` does not catch `BaseException` cancellations such as `asyncio.CancelledError`. The model has no cancellation.
- The WebSocket transport and the server (`start_websocket_server`, lines 86-96) are network I/O run by a library. That covers the bind on port 8765, the 20-second ping interval and timeout, and the bind-failure message. A connection is modelled as the frames it delivered and the way it ended.
- The thread and event-loop start-up in `main` (lines 175-191) is concurrency only. Each connection is modelled on its own, with no ordering across connections.
- The route probe in `get_local_ip` (the `connect` and `getsockname` at lines 37-38) is network I/O. Its result is a parameter of `LocalIp`.
- Page.LocalIp: the socket is created at line 34, outside the `try`. If creating it fails, the exception propagates instead of falling back to `127.0.0.1`. The model does not have this path.
- Page.UpdateHtml: the function has no `try`. A failure to open, read or decode the template (lines 120-121) or to write the page (lines 128-129) propagates, and `main` stops at line 180. The model only has the template's presence or absence. The template is the text `file.read()` returns, after decoding with the locale encoding and turning `\r\n` and a lone `\r` into `\n`. The page is the text passed to `write`, before each `\n` becomes `os.linesep`. The files on disk can therefore differ from these texts in their line endings and encoding, even when the texts are equal.
- Relay.Process: the oracle `ok` is a fixed function of the call. A given call therefore succeeds or fails the same way at every message of a connection. Failures of the library that depend on time or on the screen state are not modelled.
- Relay.HandleClient: the three `print` calls can themselves raise, for instance a `UnicodeEncodeError` on a console that cannot show the text. Line 79 prints the client's message, line 81 the close reason the client sent, and line 83 whatever error reached it. A raise at line 79 escapes to line 82, which prints the "unexpected error" notice and ends the handler. A raise at line 81 or 83 has no `try` around it, so the exception leaves `handle_client` and the handler does not return normally. The model assumes every `print` succeeds.
- The HTTP server and `translate_path` (lines 100-113) and the PyInstaller path lookup `get_html_path` (lines 21-29) are file-system plumbing. So is the existence test on the template file. The model passes the text read from the template, or its absence, to `UpdateHtml`.
- `str.replace` with an empty pattern is not modelled: `Replace` requires a non-empty pattern, and the only call site uses the fixed placeholder.
- The Tkinter layout is UI only: geometry, fonts, colours, `pack`, `mainloop`, and `webbrowser.open` on a click. `ShowBanner` keeps only the text shown and the link a click opens.
- main1.py only serves the page and prints inbound WebSocket messages. It has no decision logic and is not part of this model.

=== FILE: commands.dfy ===
/**
 The command vocabulary of the remote-control relay (omain1.py, lines 52-77):
 the ten `action` tags a client may send, the input calls they turn into, and
 the `if`/`elif` chain that recognises a tag.
 */
module Commands {
  import opened Wrappers

  /** One recognised command; the key of `press_key` is read separately. */
  datatype Command =
    | LeftClick
    | RightClick
    | PressKey
    | Fullscreen
    | ExitFullscreen
    | MinimizeAll
    | PlayPause
    | Mute
    | VolumeUp
    | VolumeDown

  /**
   One call into the input-injection library. `Press` carries the key exactly
   as the client sent it, `None` standing for Python's `None` when the message
   had no `key` field.
   */
  datatype Effect =
    | Click
    | RightClickEffect
    | Press(key: Option<string>)
    | Hotkey(keys: seq<string>)

  /** The wire tag of each command: the reference table the dispatch chain must agree with. */
  function TagOf(c: Command): string {
    match c
    case LeftClick => "left_click"
    case RightClick => "right_click"
    case PressKey => "press_key"
    case Fullscreen => "fullscreen"
    case ExitFullscreen => "exit_fullscreen"
    case MinimizeAll => "minimize_all"
    case PlayPause => "play_pause"
    case Mute => "mute"
    case VolumeUp => "volume_up"
    case VolumeDown => "volume_down"
  }

  /**
   The `if`/`elif` chain on `data.get("action")`, in source order. A missing
   action (`None`) equals no tag, so it selects nothing, as does any unknown tag.
   */
  function Recognise(action: Option<string>): (r: Option<Command>)
    ensures r.Some? ==> action == Some(TagOf(r.value))
    ensures r.None? ==> forall c :: action != Some(TagOf(c))
  {
    if action == Some("left_click") then Some(LeftClick)
    else if action == Some("right_click") then Some(RightClick)
    else if action == Some("press_key") then Some(PressKey)
    else if action == Some("fullscreen") then Some(Fullscreen)
    else if action == Some("exit_fullscreen") then Some(ExitFullscreen)
    else if action == Some("minimize_all") then Some(MinimizeAll)
    else if action == Some("play_pause") then Some(PlayPause)
    else if action == Some("mute") then Some(Mute)
    else if action == Some("volume_up") then Some(VolumeUp)
    else if action == Some("volume_down") then Some(VolumeDown)
    else None
  }

  /**
   The single input call each branch makes. `key` is the message's `key`
   field, consulted only by `press_key` and passed on untouched.
   */
  function EffectOf(c: Command, key: Option<string>): (e: Effect)
    ensures c == PressKey ==> e == Press(key)
    ensures e.Press? && e.key.None? ==> c == PressKey && key.None?
    ensures e.Click? <==> c == LeftClick
    ensures e.RightClickEffect? <==> c == RightClick
    ensures e.Hotkey? <==> c == MinimizeAll
  {
    match c
    case LeftClick => Click
    case RightClick => RightClickEffect
    case PressKey => Press(key)
    case Fullscreen => Press(Some("f"))
    case ExitFullscreen => Press(Some("esc"))
    case MinimizeAll => Hotkey(["win", "d"])
    case PlayPause => Press(Some("playpause"))
    case Mute => Press(Some("volumemute"))
    case VolumeUp => Press(Some("volumeup"))
    case VolumeDown => Press(Some("volumedown"))
  }

  /** No two commands share a tag, so a tag selects at most one branch. */
  lemma TagsDistinct(c1: Command, c2: Command)
    ensures TagOf(c1) == TagOf(c2) <==> c1 == c2
  {
    match c1
    case LeftClick =>
    case RightClick =>
    case PressKey =>
    case Fullscreen =>
    case ExitFullscreen =>
    case MinimizeAll =>
    case PlayPause =>
    case Mute =>
    case VolumeUp =>
    case VolumeDown =>
  }

  /** The chain recognises every command's own tag as that command. */
  lemma RecogniseTagOf(c: Command)
    ensures Recognise(Some(TagOf(c))) == Some(c)
  {
    TagsDistinct(c, Recognise(Some(TagOf(c))).value);
  }

  /** Only the press_key branch reads the `key` field; every other command ignores it. */
  lemma KeyOnlyMattersForPressKey(c: Command, k1: Option<string>, k2: Option<string>)
    ensures EffectOf(c, k1) == EffectOf(c, k2) <==> (c != PressKey || k1 == k2)
  {
  }
}

=== FILE: page.dfy ===
/**
 The start-up computations around the relay (omain1.py): the configuration
 constants (lines 15-16), the rewrite of the control page's WebSocket address
 by `update_html_file` (lines 116-129), the access link and the "not
 connected" branch of `run_gui` (lines 138-140), and the loopback fallback of
 `get_local_ip` (lines 32-41). The text read from the template and the text
 written to the page are the input and output of pure functions: a template
 that does not exist is `None`, and so is a page that is not written.
 */
module Page {
  import opened Wrappers
  import opened Text

  const HttpPort: nat := 8080
  const WsPort: nat := 8765

  /** The address the control page template holds until it is rewritten. */
  const Placeholder: string := "ws://localhost:port"

  /** The address `get_local_ip` falls back to, and that `run_gui` reads as "no network". */
  const Loopback: string := "127.0.0.1"

  /** The page's path on the HTTP server, after the port in the access link. */
  const PagePath: string := "/index.html"

  /** The ports print as the digits the page and the link carry. */
  lemma PortsPrint()
    ensures Decimal(WsPort) == "8765"
    ensures Decimal(HttpPort) == "8080"
  {
    assert Decimal(8) == "8" && Decimal(87) == "87" && Decimal(876) == "876";
    assert Decimal(80) == "80" && Decimal(808) == "808";
  }

  /** The middle of `s` between `prefix` and `suffix`, if `s` has both. */
  function Between(s: string, prefix: string, suffix: string): (r: Option<string>)
    ensures r.Some? ==> s == prefix + r.value + suffix
  {
    if |prefix| + |suffix| <= |s| && s[..|prefix|] == prefix && s[|s| - |suffix|..] == suffix
    then
      var mid := s[|prefix|..|s| - |suffix|];
      assert s == s[..|prefix|] + mid + s[|s| - |suffix|..];
      Some(mid)
    else None
  }

  /** Wrapping a middle in a prefix and a suffix and taking it out again gives it back. */
  lemma BetweenRoundTrip(prefix: string, mid: string, suffix: string)
    ensures Between(prefix + mid + suffix, prefix, suffix) == Some(mid)
  {
    var s := prefix + mid + suffix;
    assert s[..|prefix|] == prefix;
    assert s[|s| - |suffix|..] == suffix;
    assert s[|prefix|..|s| - |suffix|] == mid;
  }

  /** `f"ws://{ip_address}:{WS_PORT}"`: the address the page's script connects to. */
  function WsAddress(ip: string): (addr: string)
    ensures Between(addr, "ws://", ":" + Decimal(WsPort)) == Some(ip)
  {
    BetweenRoundTrip("ws://", ip, ":" + Decimal(WsPort));
    "ws://" + ip + (":" + Decimal(WsPort))
  }

  lemma WsAddressLiteral(ip: string)
    ensures WsAddress(ip) == "ws://" + ip + ":8765"
  {
    PortsPrint();
  }

  /** The rewritten address never equals the placeholder, whatever the IP. */
  lemma WsAddressIsNotPlaceholder(ip: string)
    ensures WsAddress(ip) != Placeholder
  {
    WsAddressLiteral(ip);
    var a := WsAddress(ip);
    assert a[|a| - 1] == '5';
    assert Placeholder[|Placeholder| - 1] == 't';
  }

  /**
   `update_html_file`: with a template, the text written to the page is the
   text read from the template with every non-overlapping occurrence of the placeholder, left to right,
   replaced by the WebSocket address for `ip`; without one nothing is written.
   */
  function UpdateHtml(template: Option<string>, ip: string): (page: Option<string>)
    ensures page.None? <==> template.None?
    ensures page.Some? ==>
      |page.value| == |template.value| + Count(template.value, Placeholder) * (|WsAddress(ip)| - |Placeholder|)
  {
    match template
    case None => None
    case Some(content) =>
      Some(Replace(content, Placeholder, WsAddress(ip)))
  }

  /** The text written is the text read exactly when it holds no placeholder. */
  lemma UpdateHtmlUnchangedIff(template: string, ip: string)
    ensures UpdateHtml(Some(template), ip) == Some(template) <==> IndexOf(template, Placeholder).None?
  {
    WsAddressIsNotPlaceholder(ip);
    ReplaceUnchangedIff(template, Placeholder, WsAddress(ip));
  }

  /** A template that is just the placeholder becomes just the address. */
  lemma UpdateHtmlPlaceholderOnly(ip: string)
    ensures UpdateHtml(Some(Placeholder), ip) == Some("ws://" + ip + ":8765")
  {
    WsAddressLiteral(ip);
    var p := Placeholder;
    assert p[..|p|] == p;
    assert IndexOf(p, p) == Some(0);
    ReplaceStep(p, p, WsAddress(ip));
    assert p[..0] == [] && p[|p|..] == [];
    ReplaceNoMatch([], p, WsAddress(ip));
    assert Replace(p, p, WsAddress(ip)) == WsAddress(ip);
  }

  /** `f"http://{ip_address}:{HTTP_PORT}/index.html"`: the link shown to the user. */
  function AccessLink(ip: string): (link: string)
    ensures Between(link, "http://", ":" + Decimal(HttpPort) + PagePath) == Some(ip)
  {
    BetweenRoundTrip("http://", ip, ":" + Decimal(HttpPort) + PagePath);
    "http://" + ip + (":" + Decimal(HttpPort) + PagePath)
  }

  lemma AccessLinkLiteral(ip: string)
    ensures AccessLink(ip) == "http://" + ip + ":8080/index.html"
  {
    PortsPrint();
  }

  /** Different addresses give different links. */
  lemma AccessLinkInjective(ip1: string, ip2: string)
    ensures AccessLink(ip1) == AccessLink(ip2) <==> ip1 == ip2
  {
  }

  /** What the window shows. */
  datatype Banner =
    | NotConnected(message: string)
    | Connected(ipLabel: string, linkLabel: string, target: string)

  /**
   The branch of `run_gui`: the loopback address means no network; any other
   address shows itself and the access link, which a click opens.
   */
  function ShowBanner(ip: string): (b: Banner)
    ensures b.NotConnected? <==> ip == Loopback
    ensures b.Connected? ==> b.ipLabel == "Computer IP Address: " + ip
    ensures b.Connected? ==> b.linkLabel == "Access from phone: " + b.target
    ensures b.Connected? ==> Between(b.target, "http://", ":" + Decimal(HttpPort) + PagePath) == Some(ip)
  {
    var link := AccessLink(ip);
    if ip == Loopback then NotConnected("Not connected to any Network. Please connect to a network.")
    else Connected("Computer IP Address: " + ip, "Access from phone: " + link, link)
  }

  /**
   `get_local_ip`, with the result of the route probe (the `connect` and
   `getsockname` inside the `try`) as a parameter: None when it raised.
   The address is the loopback one exactly when the probe failed or itself
   reported loopback.
   */
  function LocalIp(probe: Option<string>): (ip: string)
    ensures probe.None? ==> ip == Loopback
    ensures probe.Some? ==> ip == probe.value
    ensures ip == Loopback <==> (probe.None? || probe.value == Loopback)
  {
    match probe
    case Some(addr) => addr
    case None => Loopback
  }

  /** Without a route, the window reports that there is no network. */
  lemma NoRouteShowsNotConnected()
    ensures ShowBanner(LocalIp(None)).NotConnected?
  {
  }
}

=== FILE: relay.dfy ===
/**
 The per-connection command handler `handle_client` (omain1.py, lines 44-83).
 Inbound text frames arrive already parsed into `Msg`; the input library's
 calls are `Effect` values whose success is decided by an oracle `ok`. The
 handler's `print` of a caught exception is the `Error` outcome of a message.
 */
module Relay {
  import opened Wrappers
  import opened Commands

  /**
   The result of `json.loads` on one frame. `Malformed` is a frame that does
   not parse; `NonObject` a JSON value without `.get` (array, string, number,
   `null`); `Obj` an object, with the values of its `action` and `key` fields.
   */
  datatype Msg =
    | Malformed
    | NonObject
    | Obj(action: Option<string>, key: Option<string>)

  /** Why processing one message raised an exception. */
  datatype Cause =
    | BadJson
    | NoGet
    | CallFailed(effect: Effect)

  /** What happened to one message. */
  datatype Outcome =
    | Performed(effect: Effect)
    | Ignored
    | Error(cause: Cause)

  /** How the stream of frames ended. */
  datatype StreamEnd =
    | CleanClose
    | AbnormalClose(reason: string)
    | OtherFault(reason: string)

  /** One connection as the handler sees it: its frames in arrival order, then its end. */
  datatype Connection = Connection(frames: seq<Msg>, end: StreamEnd)

  /** The notice the outer `except` clauses print, if any. */
  datatype Notice =
    | ClosedUnexpectedly(reason: string)
    | UnexpectedError(reason: string)

  /** Everything a handler run produces: one outcome per frame, and the closing notice. */
  datatype Report = Report(outcomes: seq<Outcome>, notice: Option<Notice>)

  /** The input calls one message asks for: none when it fails to decode or selects no branch. */
  function Dispatch(m: Msg): (r: seq<Effect>)
    ensures |r| <= 1
    ensures r != [] <==> m.Obj? && exists c :: m.action == Some(TagOf(c))
    ensures forall c :: m.Obj? && m.action == Some(TagOf(c)) ==> r == [EffectOf(c, m.key)]
  {
    match m
    case Obj(action, key) =>
      (match Recognise(action)
       case Some(c) => [EffectOf(c, key)]
       case None => [])
    case _ => []
  }

  /** The body of the inner `try` for one message, with its `except` (lines 48-79). */
  function Process(m: Msg, ok: Effect -> bool): (r: Outcome)
    ensures r.Performed? <==> |Dispatch(m)| == 1 && ok(Dispatch(m)[0])
    ensures r.Performed? ==> Dispatch(m) == [r.effect]
    ensures r.Ignored? <==> m.Obj? && Dispatch(m) == []
    ensures r.Error? && r.cause.CallFailed? ==> Dispatch(m) == [r.cause.effect] && !ok(r.cause.effect)
    ensures r == Error(BadJson) <==> m.Malformed?
    ensures r == Error(NoGet) <==> m.NonObject?
  {
    match m
    case Malformed => Error(BadJson)
    case NonObject => Error(NoGet)
    case Obj(action, key) =>
      match Recognise(action)
      case None => Ignored
      case Some(c) =>
        var e := EffectOf(c, key);
        if ok(e) then Performed(e) else Error(CallFailed(e))
  }

  /** The `async for` loop over a connection's frames, one message at a time, in order. */
  function Handle(msgs: seq<Msg>, ok: Effect -> bool): (r: seq<Outcome>)
    ensures |r| == |msgs|
    ensures forall i :: 0 <= i < |msgs| ==> r[i] == Process(msgs[i], ok)
  {
    if msgs == [] then [] else [Process(msgs[0], ok)] + Handle(msgs[1..], ok)
  }

  /** The input calls that took effect, in order. */
  function Effects(trace: seq<Outcome>): (r: seq<Effect>)
    ensures |r| <= |trace|
    ensures forall i :: 0 <= i < |trace| && trace[i].Performed? ==> trace[i].effect in r
    ensures forall e :: e in r ==> Performed(e) in trace
  {
    if trace == [] then []
    else if trace[0].Performed? then [trace[0].effect] + Effects(trace[1..])
    else Effects(trace[1..])
  }

  /** The input calls the messages ask for, whether or not they succeed. */
  function Calls(msgs: seq<Msg>): seq<Effect> {
    if msgs == [] then [] else Dispatch(msgs[0]) + Calls(msgs[1..])
  }

  /** The calls of `calls` that the oracle lets succeed, in order. */
  function Succeeding(calls: seq<Effect>, ok: Effect -> bool): seq<Effect> {
    if calls == [] then []
    else if ok(calls[0]) then [calls[0]] + Succeeding(calls[1..], ok)
    else Succeeding(calls[1..], ok)
  }

  /**
   `handle_client` as a loop: every frame received before the stream ends is
   processed in arrival order, a failing message never stops the loop, and the
   way the stream ends only adds a notice. The `print` calls are assumed not
   to raise, so the handler returns.
   */
  method HandleClient(conn: Connection, ok: Effect -> bool) returns (report: Report)
    ensures |report.outcomes| == |conn.frames|
    ensures forall i :: 0 <= i < |conn.frames| ==> report.outcomes[i] == Process(conn.frames[i], ok)
    ensures report.outcomes == Handle(conn.frames, ok)
    ensures report.notice.None? <==> conn.end.CleanClose?
    ensures conn.end.AbnormalClose? ==> report.notice == Some(ClosedUnexpectedly(conn.end.reason))
    ensures conn.end.OtherFault? ==> report.notice == Some(UnexpectedError(conn.end.reason))
  {
    var outcomes: seq<Outcome> := [];
    var n := 0;
    while n < |conn.frames|
      invariant 0 <= n <= |conn.frames|
      invariant |outcomes| == n
      invariant forall i :: 0 <= i < n ==> outcomes[i] == Process(conn.frames[i], ok)
    {
      var outcome := Process(conn.frames[n], ok);
      outcomes := outcomes + [outcome];
      n := n + 1;
    }
    var notice: Option<Notice> :=
      match conn.end
      case CleanClose => None
      case AbnormalClose(reason) => Some(ClosedUnexpectedly(reason))
      case OtherFault(reason) => Some(UnexpectedError(reason));
    report := Report(outcomes, notice);
  }

  /** The effects of a trace are the effects of its parts, in order. */
  lemma {:induction false} EffectsAppend(a: seq<Outcome>, b: seq<Outcome>)
    ensures Effects(a + b) == Effects(a) + Effects(b)
    decreases |a|
  {
    if a == [] {
      assert a + b == b;
    } else {
      assert (a + b)[1..] == a[1..] + b;
      EffectsAppend(a[1..], b);
    }
  }

  /** Handling two batches one after the other is handling their concatenation. */
  lemma {:induction false} HandleAppend(m1: seq<Msg>, m2: seq<Msg>, ok: Effect -> bool)
    ensures Handle(m1 + m2, ok) == Handle(m1, ok) + Handle(m2, ok)
    decreases |m1|
  {
    if m1 == [] {
      assert m1 + m2 == m2;
    } else {
      assert (m1 + m2)[0] == m1[0];
      assert (m1 + m2)[1..] == m1[1..] + m2;
      HandleAppend(m1[1..], m2, ok);
    }
  }

  /** In-order concatenation: the effects of `m1 ++ m2` are those of `m1`, then those of `m2`. */
  lemma EffectsOfConcatenation(m1: seq<Msg>, m2: seq<Msg>, ok: Effect -> bool)
    ensures Effects(Handle(m1 + m2, ok)) == Effects(Handle(m1, ok)) + Effects(Handle(m2, ok))
  {
    HandleAppend(m1, m2, ok);
    EffectsAppend(Handle(m1, ok), Handle(m2, ok));
  }

  /**
   The effects of a connection are exactly the calls its messages ask for,
   less the ones that fail: each failure drops its own call and nothing else.
   */
  lemma {:induction false} EffectsAreSucceedingCalls(msgs: seq<Msg>, ok: Effect -> bool)
    ensures Effects(Handle(msgs, ok)) == Succeeding(Calls(msgs), ok)
    decreases |msgs|
  {
    if msgs != [] {
      var h := Handle(msgs, ok);
      assert h[1..] == Handle(msgs[1..], ok);
      EffectsAreSucceedingCalls(msgs[1..], ok);
      var d := Dispatch(msgs[0]);
      if d == [] {
        assert Calls(msgs) == Calls(msgs[1..]);
      } else {
        assert Calls(msgs) == [d[0]] + Calls(msgs[1..]);
        assert Calls(msgs)[1..] == Calls(msgs[1..]);
      }
    }
  }

  /**
   Error isolation: a message that raises or selects nothing can be inserted
   anywhere in a connection without changing the effects of the others.
   */
  lemma SilentMessageIsolated(before: seq<Msg>, m: Msg, after: seq<Msg>, ok: Effect -> bool)
    requires !Process(m, ok).Performed?
    ensures Effects(Handle(before + [m] + after, ok)) == Effects(Handle(before + after, ok))
  {
    var silent := Handle([m], ok);
    assert silent == [Process(m, ok)];
    assert silent[1..] == [];
    assert Effects(silent) == [];
    EffectsOfConcatenation(before + [m], after, ok);
    EffectsOfConcatenation(before, [m], ok);
    EffectsOfConcatenation(before, after, ok);
    var eb := Effects(Handle(before, ok));
    var ea := Effects(Handle(after, ok));
    assert Effects(Handle(before + [m], ok)) == eb + [];
    assert eb + [] == eb;
  }

  /** Each of the ten tags yields exactly its one input call, whatever else the message holds. */
  lemma TagTable(k: Option<string>)
    ensures Dispatch(Obj(Some("left_click"), k)) == [Click]
    ensures Dispatch(Obj(Some("right_click"), k)) == [RightClickEffect]
    ensures Dispatch(Obj(Some("press_key"), k)) == [Press(k)]
    ensures Dispatch(Obj(Some("fullscreen"), k)) == [Press(Some("f"))]
    ensures Dispatch(Obj(Some("exit_fullscreen"), k)) == [Press(Some("esc"))]
    ensures Dispatch(Obj(Some("minimize_all"), k)) == [Hotkey(["win", "d"])]
    ensures Dispatch(Obj(Some("play_pause"), k)) == [Press(Some("playpause"))]
    ensures Dispatch(Obj(Some("mute"), k)) == [Press(Some("volumemute"))]
    ensures Dispatch(Obj(Some("volume_up"), k)) == [Press(Some("volumeup"))]
    ensures Dispatch(Obj(Some("volume_down"), k)) == [Press(Some("volumedown"))]
  {
    DispatchOfTag(LeftClick, k);
    DispatchOfTag(RightClick, k);
    DispatchOfTag(PressKey, k);
    DispatchOfTag(Fullscreen, k);
    DispatchOfTag(ExitFullscreen, k);
    DispatchOfTag(MinimizeAll, k);
    DispatchOfTag(PlayPause, k);
    DispatchOfTag(Mute, k);
    DispatchOfTag(VolumeUp, k);
    DispatchOfTag(VolumeDown, k);
  }

  lemma DispatchOfTag(c: Command, k: Option<string>)
    ensures Dispatch(Obj(Some(TagOf(c)), k)) == [EffectOf(c, k)]
  {
  }

  /**
   The press_key branch hands the client's key to the input library as is,
   with no validation, including an absent key.
   */
  lemma PressKeyPassesKeyThrough(k: Option<string>, ok: Effect -> bool)
    ensures Process(Obj(Some("press_key"), k), ok) ==
      (if ok(Press(k)) then Performed(Press(k)) else Error(CallFailed(Press(k))))
  {
    TagTable(k);
  }

  /** An object whose action is missing or unknown falls through the chain: no call, no error. */
  lemma UnknownActionFallsThrough(a: Option<string>, k: Option<string>, ok: Effect -> bool)
    requires forall c :: a != Some(TagOf(c))
    ensures Dispatch(Obj(a, k)) == []
    ensures Process(Obj(a, k), ok) == Ignored
  {
  }

  /** A malformed frame does not poison the session: the click after it still happens. */
  lemma MalformedThenClick(ok: Effect -> bool)
    requires ok(Click)
    ensures Effects(Handle([Malformed, Obj(Some("left_click"), None)], ok)) == [Click]
  {
    var click := Obj(Some("left_click"), None);
    DispatchOfTag(LeftClick, None);
    assert Process(click, ok) == Performed(Click);
    var h := Handle([Malformed, click], ok);
    assert h == [Error(BadJson), Performed(Click)];
    EffectsAppend([Error(BadJson)], [Performed(Click)]);
    assert [Error(BadJson), Performed(Click)] == [Error(BadJson)] + [Performed(Click)];
  }
}

=== FILE: text.dfy ===
/**
 Python's `str.replace` and the decimal formatting of an `int` in an f-string,
 as used by `update_html_file` and `run_gui` (omain1.py, lines 124-126 and 138).
 Strings are sequences of characters.
 */
module Text {
  import opened Wrappers

  /** `pat` occurs in `s` starting at index `i`. */
  predicate MatchAt(s: string, pat: string, i: nat) {
    i + |pat| <= |s| && s[i..i + |pat|] == pat
  }

  /** The index of the leftmost occurrence of `pat` in `s` (`str.find`), or None. */
  function IndexOf(s: string, pat: string): (r: Option<nat>)
    ensures r.Some? ==> r.value + |pat| <= |s|
    decreases |s|
  {
    if |s| < |pat| then None
    else if s[..|pat|] == pat then Some(0)
    else
      match IndexOf(s[1..], pat)
      case None => None
      case Some(i) => Some(i + 1)
  }

  /** `IndexOf` finds an occurrence exactly when there is one, and then the leftmost. */
  lemma {:induction false} IndexOfLeftmost(s: string, pat: string)
    ensures IndexOf(s, pat).Some? ==> MatchAt(s, pat, IndexOf(s, pat).value)
    ensures IndexOf(s, pat).Some? ==> forall j: nat :: j < IndexOf(s, pat).value ==> !MatchAt(s, pat, j)
    ensures IndexOf(s, pat).None? ==> forall j: nat :: !MatchAt(s, pat, j)
    decreases |s|
  {
    if |s| < |pat| {
    } else if s[..|pat|] == pat {
    } else {
      IndexOfLeftmost(s[1..], pat);
      match IndexOf(s[1..], pat)
      case None =>
        NoMatchShifted(s, pat, |s|);
      case Some(i) =>
        ShiftMatch(s, pat, i);
        NoMatchShifted(s, pat, i);
    }
  }

  /** An occurrence in the tail of `s` is an occurrence in `s` one place further right. */
  lemma ShiftMatch(s: string, pat: string, j: nat)
    requires |s| > 0
    ensures MatchAt(s[1..], pat, j) <==> MatchAt(s, pat, j + 1)
  {
    if j + |pat| <= |s[1..]| {
      assert s[1..][j..j + |pat|] == s[j + 1..j + 1 + |pat|];
    }
  }

  /** No occurrence at 0 and none in the tail before `k` means none in `s` before `k + 1`. */
  lemma NoMatchShifted(s: string, pat: string, k: nat)
    requires |s| > 0 && !MatchAt(s, pat, 0)
    requires forall j: nat :: j < k ==> !MatchAt(s[1..], pat, j)
    ensures forall j: nat :: j < k + 1 ==> !MatchAt(s, pat, j)
  {
    forall j: nat | 0 < j < k + 1
      ensures !MatchAt(s, pat, j)
    {
      ShiftMatch(s, pat, j - 1);
    }
  }

  /** The leftmost occurrence is the one `IndexOf` reports, however it was found. */
  lemma LeftmostIsIndexOf(s: string, pat: string, i: nat)
    requires MatchAt(s, pat, i)
    requires forall j: nat :: j < i ==> !MatchAt(s, pat, j)
    ensures IndexOf(s, pat) == Some(i)
  {
    IndexOfLeftmost(s, pat);
  }

  /**
   `s.replace(pat, rep)`: replace the leftmost occurrence, then continue the
   scan just after it, so occurrences never overlap. Each replacement changes
   the length by the difference between `rep` and `pat`.
   */
  function Replace(s: string, pat: string, rep: string): (r: string)
    requires |pat| > 0
    ensures |r| == |s| + Count(s, pat) * (|rep| - |pat|)
    decreases |s|
  {
    match IndexOf(s, pat)
    case None => s
    case Some(i) =>
      var rest := s[i + |pat|..];
      MulStep(Count(rest, pat), |rep| - |pat|);
      s[..i] + rep + Replace(rest, pat, rep)
  }

  /** `s.count(pat)`: the number of non-overlapping occurrences, scanning left to right. */
  function Count(s: string, pat: string): (n: nat)
    requires |pat| > 0
    ensures n * |pat| <= |s|
    decreases |s|
  {
    match IndexOf(s, pat)
    case None => 0
    case Some(i) =>
      var rest := s[i + |pat|..];
      MulStep(Count(rest, pat), |pat|);
      1 + Count(rest, pat)
  }

  /**
   The replacement as an iterative find-and-copy loop: repeatedly find the leftmost match in
   what is left, copy the text before it followed by `rep`, and go on after it.
   */
  method ReplaceAll(s: string, pat: string, rep: string) returns (r: string)
    requires |pat| > 0
    ensures r == Replace(s, pat, rep)
  {
    r := [];
    var rest := s;
    var i := Find(rest, pat);
    while i >= 0
      invariant i >= 0 ==> IndexOf(rest, pat) == Some(i)
      invariant i < 0 ==> IndexOf(rest, pat).None?
      invariant r + Replace(rest, pat, rep) == Replace(s, pat, rep)
      decreases |rest|
    {
      ReplaceStepAppend(rest, pat, rep, i, r);
      r := r + rest[..i] + rep;
      rest := rest[i + |pat|..];
      i := Find(rest, pat);
    }
    ReplaceNoMatch(rest, pat, rep);
    r := r + rest;
  }

  /** `s.find(pat)`: the index of the leftmost match, or -1, by scanning left to right. */
  method Find(s: string, pat: string) returns (i: int)
    ensures i >= -1
    ensures i < 0 ==> IndexOf(s, pat).None?
    ensures i >= 0 ==> IndexOf(s, pat) == Some(i)
  {
    i := 0;
    while i + |pat| <= |s| && s[i..i + |pat|] != pat
      invariant forall j: nat :: j < i ==> !MatchAt(s, pat, j)
      decreases |s| - i
    {
      i := i + 1;
    }
    if i + |pat| <= |s| {
      LeftmostIsIndexOf(s, pat, i);
    } else {
      IndexOfLeftmost(s, pat);
      i := -1;
    }
  }

  /** Without an occurrence, `Replace` returns its input. */
  lemma ReplaceNoMatch(s: string, pat: string, rep: string)
    requires |pat| > 0
    requires IndexOf(s, pat).None?
    ensures Replace(s, pat, rep) == s
  {
  }

  /** One step of `Replace` and `Count`: at the leftmost occurrence. */
  lemma ReplaceStep(s: string, pat: string, rep: string)
    requires |pat| > 0
    requires IndexOf(s, pat).Some?
    ensures IndexOf(s, pat).value + |pat| <= |s|
    ensures Replace(s, pat, rep) ==
      s[..IndexOf(s, pat).value] + rep + Replace(s[IndexOf(s, pat).value + |pat|..], pat, rep)
    ensures Count(s, pat) == 1 + Count(s[IndexOf(s, pat).value + |pat|..], pat)
  {
  }

  /** One step of `ReplaceAll`'s loop, with `done` the output produced so far. */
  lemma ReplaceStepAppend(s: string, pat: string, rep: string, i: nat, done: string)
    requires |pat| > 0
    requires IndexOf(s, pat) == Some(i)
    ensures i + |pat| <= |s|
    ensures done + Replace(s, pat, rep) == (done + s[..i] + rep) + Replace(s[i + |pat|..], pat, rep)
  {
    ReplaceStep(s, pat, rep);
    assert IndexOf(s, pat).value == i;
    var tail := Replace(s[i + |pat|..], pat, rep);
    assert Replace(s, pat, rep) == s[..i] + rep + tail;
    ConcatAssoc(done, s[..i], rep, tail);
  }

  lemma ConcatAssoc(a: string, b: string, c: string, d: string)
    ensures a + (b + c + d) == (a + b + c) + d
  {
  }

  lemma ProductNonZero(c: int, d: int)
    requires c >= 1 && d != 0
    ensures c * d != 0
  {
  }

  lemma MulStep(c: int, d: int)
    ensures (1 + c) * d == d + c * d
  {
  }

  /** Replacing a string by itself changes nothing. */
  lemma {:induction false} ReplaceBySelf(s: string, pat: string)
    requires |pat| > 0
    ensures Replace(s, pat, pat) == s
    decreases |s|
  {
    if IndexOf(s, pat).Some? {
      IndexOfLeftmost(s, pat);
      ReplaceStep(s, pat, pat);
      var i := IndexOf(s, pat).value;
      ReplaceBySelf(s[i + |pat|..], pat);
      assert s == s[..i] + s[i..i + |pat|] + s[i + |pat|..];
    }
  }

  /** The replacement leaves `s` unchanged exactly when `pat` does not occur in it or `rep` is `pat`. */
  lemma ReplaceUnchangedIff(s: string, pat: string, rep: string)
    requires |pat| > 0
    ensures Replace(s, pat, rep) == s <==> IndexOf(s, pat).None? || rep == pat
  {
    if IndexOf(s, pat).None? {
      ReplaceNoMatch(s, pat, rep);
    } else if rep == pat {
      ReplaceBySelf(s, pat);
    } else if |rep| != |pat| {
      ReplaceStep(s, pat, rep);
      ProductNonZero(Count(s, pat), |rep| - |pat|);
    } else {
      ReplaceChangesFirstMatch(s, pat, rep);
    }
  }

  /** Where `pat` first occurs, the output holds `rep` instead. */
  lemma ReplaceChangesFirstMatch(s: string, pat: string, rep: string)
    requires |pat| > 0 && IndexOf(s, pat).Some? && |rep| == |pat|
    ensures Replace(s, pat, rep)[IndexOf(s, pat).value..IndexOf(s, pat).value + |pat|] == rep
    ensures s[IndexOf(s, pat).value..IndexOf(s, pat).value + |pat|] == pat
  {
    IndexOfLeftmost(s, pat);
    ReplaceStep(s, pat, rep);
  }

  /** The decimal digit character for `d`. */
  function DigitChar(d: nat): (c: char)
    requires d < 10
    ensures '0' <= c <= '9'
  {
    (48 + d) as char
  }

  /** The value of a decimal digit character. */
  function DigitValue(c: char): (d: nat)
    requires '0' <= c <= '9'
    ensures d < 10
  {
    c as nat - 48
  }

  predicate IsDigits(s: string) {
    forall i :: 0 <= i < |s| ==> '0' <= s[i] <= '9'
  }

  /** `str(n)` for a non-negative `int`: its decimal digits, without leading zeros. */
  function Decimal(n: nat): (r: string)
    ensures |r| >= 1 && IsDigits(r)
    ensures r[0] == '0' ==> n == 0
    decreases n
  {
    if n < 10 then [DigitChar(n)] else Decimal(n / 10) + [DigitChar(n % 10)]
  }

  /** `int(s)` for a string of decimal digits. */
  function ParseDecimal(s: string): nat
    requires IsDigits(s)
    decreases |s|
  {
    if s == [] then 0 else ParseDecimal(s[..|s| - 1]) * 10 + DigitValue(s[|s| - 1])
  }

  /** Formatting then parsing gives back the number. */
  lemma {:induction false} DecimalRoundTrip(n: nat)
    ensures ParseDecimal(Decimal(n)) == n
    decreases n
  {
    var d := Decimal(n);
    if n < 10 {
      assert d[..0] == [];
    } else {
      DecimalRoundTrip(n / 10);
      assert d[..|d| - 1] == Decimal(n / 10);
    }
  }

  /** Distinct numbers print differently. */
  lemma DecimalInjective(m: nat, n: nat)
    ensures Decimal(m) == Decimal(n) <==> m == n
  {
    DecimalRoundTrip(m);
    DecimalRoundTrip(n);
  }
}

=== FILE: wrappers.dfy ===
/** The optional-value datatype used throughout the model: a Python value that may be `None`. */
module Wrappers {

  datatype Option<+T> = None | Some(value: T)
}
